=== FILE: README.md ===
# Gene annotations of stereopy, modelled in Dafny

`Gene` (stereo/core/gene.py) holds the per-gene metadata of a spatial
transcriptomics expression matrix. It has three parts:

- `_var`: a table with one row per gene, labelled by the gene names, with named
  columns such as `n_cells`, `n_counts`, `mean_umi` or `highly_variable`.
- `_matrix`: a dictionary of per-gene row blocks (DataFrames, numpy arrays, sparse
  matrices).
- `_pairwise`: a dictionary of gene-by-gene matrices, or of dictionaries of them.

The model covers four things:

- `get_index` turns a gene selector into integer positions.
- `sub_set` restricts every part in place to the same list of positions.
- `_remove_unused_categories` drops the categories no cell holds any more.
- The small accessors: `size`, `len`, `in`, and the getters and setters of
  `n_cells`, `n_counts` and `mean_umi`.

Files:

- `seqs.dfy` (module `Seqs`): positional selection (`arange`, fancy indexing,
  `isin` filtering, label lookup), subsequences and multiset counts.
- `frames.dfy` (module `Frames`): the DataFrame as cells, plain and categorical
  columns, row labels and column labels. Also `iloc` row selection, the square cut of
  a gene-by-gene table, column assignment and category cleaning.
- `gene.dfy` (module `GeneCore`): selectors, the side entries, the functions that
  specify `get_index` and `sub_set`, and the class `Gene`. The class has the fields
  `frame` (`_var`), `matrix` and `pairwise`, which its methods update in place.
- `gene_lemmas.dfy` (module `GeneLemmas`): lemmas relating several calls.

Design:

- Positions are integers. A subset index is a sequence of positions in range, and
  repeats are allowed.
- A numpy array or sparse matrix is represented by its rows along the first axis.
- A `_pairwise` array also records its number of axes, because `sub_set` only cuts
  arrays with two axes.
- `Gene.Valid()` is the consistency `sub_set` keeps. The table is rectangular. Every
  supported `_matrix` entry has one row per gene. Every supported `_pairwise` matrix
  is genes × genes, inside dictionaries too.
- Python exceptions become `Result`/`Option` values: `TypeError`, `IndexError`,
  pandas' `InvalidIndexError` and `ValueError`.

## Model

| member | source | states |
|---|---|---|
| `Seqs.Range` | stereo/core/gene.py:53-55 | `np.arange(n)` is strictly increasing and holds exactly the positions 0..n-1 |
| `Seqs.Pick` | stereo/core/gene.py:186 | positional selection has one element per requested position: element a is the old element at idx[a] |
| `Seqs.Find` | stereo/core/gene.py:70 | label lookup gives -1 exactly when the label is absent, and otherwise the first position holding it |
| `Seqs.FindDistinct` | stereo/core/gene.py:70 | with unique labels, the label at p is found at p |
| `Seqs.FindFirst` | stereo/core/gene.py:116-119 | helper for reading a column back after assignment: lookup returns the first occurrence of a label |
| `Seqs.KeepIn` | stereo/core/gene.py:67-68 | `isin` filtering keeps exactly the elements that lie in the pool, and never adds elements |
| `Seqs.KeepInSubseq` | stereo/core/gene.py:67-68 | the filtered result keeps input order: it is a subsequence of the input |
| `Seqs.KeepInCount` | stereo/core/gene.py:67-68 | each pooled element keeps all its repeats; every other element disappears |
| `Seqs.KeepInNarrow` | stereo/core/gene.py:216 | helper for cleaning categories after a cut: filtering by a pool and then by a narrower one equals filtering by the narrower one |
| `Seqs.KeepInDistinct` | stereo/core/gene.py:216 | helper for cleaning categories after a cut: filtering a list without repeats gives a list without repeats |
| `Seqs.PickPick` | stereo/core/gene.py:186 | selecting from a selection equals one selection by the composed positions |
| `Seqs.PickRange` | stereo/core/gene.py:186 | selecting every position in order returns the sequence |
| `Frames.Lookup` | stereo/core/gene.py:110-114 | a column's values are absent exactly when the label is not a column, and otherwise have one value per gene |
| `Frames.SetColumn` | stereo/core/gene.py:116-119 | assignment keeps the rows and the rectangle; it appends the label only when the label is new, so unique labels stay unique |
| `Frames.SetColumnLookup` | stereo/core/gene.py:116-119 | after assignment, reading the column gives the assigned values and every other column reads as before |
| `Frames.GrowRows` | stereo/core/gene.py:119 | assigning a list to a table without rows first gives it one row per value with the given labels; existing columns keep their kind and categories and hold only missing cells |
| `Frames.GrowRowsLookup` | stereo/core/gene.py:119 | after growing, an existing column reads as missing cells and any other label reads as absent |
| `Frames.TakeCells` | stereo/core/gene.py:186 | a column's selected cells are the cells at the positions; its categories stay until cleaning |
| `Frames.TakeRows` | stereo/core/gene.py:186 | `iloc[index]` gives a rectangular table whose row labels and cells are the rows at the positions; column labels stay |
| `Frames.TakeSquare` | stereo/core/gene.py:197-199 | the cut of a gene-by-gene DataFrame is square of side \|index\|, and cell (a, b) is old cell (index[a], index[b]); column b keeps the kind and the categories of old column index[b] |
| `Frames.CleanColumn` | stereo/core/gene.py:238-239 | a categorical column keeps its cells; its categories become those still held by a cell, in their original order; plain columns are untouched |
| `Frames.CleanFrame` | stereo/core/gene.py:237-239 | every column is cleaned, labels stay, and the table stays rectangular |
| `Frames.DropUnusedCategories` | stereo/core/gene.py:237-239 | the loop over a table's columns produces the cleaned table |
| `Frames.TakeRowsTwice` | stereo/core/gene.py:186 | cutting rows twice equals one cut by the composed positions |
| `Frames.TakeSquareTwice` | stereo/core/gene.py:197-199 | cutting a square table twice equals one cut by the composed positions |
| `Frames.CleanTakeTwice` | stereo/core/gene.py:186 | cut, clean, cut, clean equals one cut and one cleaning, for a column |
| `Frames.CleanTakeRowsTwice` | stereo/core/gene.py:186 | the same for a whole table |
| `Frames.CleanTakeSquareTwice` | stereo/core/gene.py:197-199 | the same for a gene-by-gene table |
| `Frames.CleanFrameIdempotent` | stereo/core/gene.py:237-239 | cleaning categories a second time changes nothing |
| `Frames.TakeAllRows` | stereo/core/gene.py:186 | selecting every row in order returns the table |
| `Frames.TakeAllSquare` | stereo/core/gene.py:197-199 | cutting a square table by every position returns it |
| `GeneCore.DecimalString` | stereo/core/gene.py:64 | numpy's text of an integer: a '-' exactly for negative integers, then only decimal digits, with no leading zero unless the text is "0"; it reads back as the integer |
| `GeneCore.DigitsRoundTrip` | stereo/core/gene.py:64 | the decimal digits of a natural number read back as that number |
| `GeneCore.DecimalStringInjective` | stereo/core/gene.py:64 | two integers get the same text exactly when they are equal |
| `GeneCore.RowLabels` | stereo/core/gene.py:119 | the labels of a new row index of k rows, as `gene_name` shows them: k distinct texts, the a-th being the decimal text of a (so "0", …, "10", …), which reads back as a |
| `GeneCore.Render` | stereo/core/gene.py:64 | in a string array a name stays as it is and an integer becomes its decimal text, which reads back as the integer |
| `GeneCore.Texts` | stereo/core/gene.py:64 | `np.array` of a list holding a name has one text per item: names unchanged, integers as their decimal text, which reads back as the integer |
| `GeneCore.Indexer` | stereo/core/gene.py:70 | `get_indexer` gives one entry per name: the name's position, or -1 |
| `GeneCore.Found` | stereo/core/gene.py:71 | dropping -1 keeps exactly the found positions |
| `GeneCore.TruePositions` | stereo/core/gene.py:52-53 | the flagged positions are strictly increasing, and a missing flag counts as False |
| `GeneCore.UsedPositions` | stereo/core/gene.py:50-55 | the starting positions are ascending and are exactly the used ones: every gene, or only the flagged ones when asked and the column exists |
| `GeneCore.Locate` | stereo/core/gene.py:60-74 | the list branch returns only used positions; it fails with IndexError only on an empty list, and with InvalidIndexError only for names over non-unique gene names |
| `GeneCore.CutGrid` | stereo/core/gene.py:204 | `value[index][:, index]` is square of side \|index\|, with cell (a, b) equal to old cell (index[a], index[b]) |
| `GeneCore.CutMatrixEntry` | stereo/core/gene.py:188-194 | a cut `_matrix` entry has one row per selected gene; unsupported values are unchanged |
| `GeneCore.CutNestedEntry` | stereo/core/gene.py:206-213 | a cut dictionary value is square of side \|index\|; unsupported values are unchanged |
| `GeneCore.CutDict` | stereo/core/gene.py:205-213 | a cut dictionary has the same keys, and every value fits the new size |
| `GeneCore.CutPairEntry` | stereo/core/gene.py:196-215 | a cut `_pairwise` entry fits the new size; arrays with other than two axes, and unsupported values, are unchanged |
| `GeneCore.CutMatrix` | stereo/core/gene.py:188-194 | every `_matrix` key survives, and every entry fits the new size |
| `GeneCore.CutPairwise` | stereo/core/gene.py:196-215 | every `_pairwise` key survives, and every entry fits the new size |
| `GeneCore.CleanMatrixEntry` | stereo/core/gene.py:241-246 | cleaning touches only DataFrame entries and keeps every entry's size |
| `GeneCore.CleanPairEntry` | stereo/core/gene.py:241-246 | cleaning touches only top-level DataFrames and keeps every entry's size |
| `GeneCore.CleanMatrix` | stereo/core/gene.py:241-246 | cleaning keeps the `_matrix` keys |
| `GeneCore.CleanPairwise` | stereo/core/gene.py:241-246 | cleaning keeps the `_pairwise` keys |
| `GeneCore.SubsetNestedDict` | stereo/core/gene.py:205-213 | the loop over a nested dictionary replaces every value by its cut |
| `GeneCore.SubsetConsistent` | stereo/core/gene.py:177-217 | subsetting a consistent state by in-range positions gives a consistent state of size \|index\| |
| `GeneCore.Gene.FromFrame` | stereo/core/gene.py:26-35 | a Gene built from a table with unique column labels holds it, with empty side dictionaries |
| `GeneCore.Gene.FromNames` | stereo/core/gene.py:32-35 | a Gene built from names has those labels and no columns |
| `GeneCore.Gene.Size` | stereo/core/gene.py:86-88 | `size` is the number of gene names |
| `GeneCore.Gene.Len` | stereo/core/gene.py:46-47 | `len` equals `size` |
| `GeneCore.Gene.Contains` | stereo/core/gene.py:37-38 | `in` holds exactly when the column can be read |
| `GeneCore.Gene.NCells` | stereo/core/gene.py:110-114 | None exactly when the table has no `n_cells` column; otherwise one value per gene |
| `GeneCore.Gene.NCounts` | stereo/core/gene.py:121-125 | the same for `n_counts` |
| `GeneCore.Gene.MeanUmi` | stereo/core/gene.py:132-136 | the same for `mean_umi` |
| `GeneCore.Gene.GetIndex` | stereo/core/gene.py:49-76 | with no selector: ascending and exactly the used positions (every gene, or only those flagged True in an existing `highly_variable` column when `only_highly_genes` is set). Every returned position is used, so below `size`. An unsupported selector type gives TypeError, an empty list gives IndexError, and InvalidIndexError arises only when the gene names are not unique |
| `GeneCore.Gene.SetAnnotation` | stereo/core/gene.py:116-141 | the side dictionaries are untouched, and None changes nothing. On a table with rows, values of another length give ValueError and change nothing. Values of the table's length replace or append the column, every other column stays unchanged, and the object stays consistent. On a table without rows, a non-empty list gives the table one row per value, labelled "0", "1", …. The column then reads back as the values, and every other existing column reads as missing cells |
| `GeneCore.Gene.SetNCells` | stereo/core/gene.py:116-119 | the same as `SetAnnotation` for `n_cells`. Every other column (`n_counts`, `mean_umi`, `highly_variable`, …) is unchanged when the table keeps its rows, and reads as missing cells when an empty table grows |
| `GeneCore.Gene.SetNCounts` | stereo/core/gene.py:127-130 | the same for `n_counts` |
| `GeneCore.Gene.SetMeanUmi` | stereo/core/gene.py:138-141 | the same for `mean_umi` |
| `GeneCore.Gene.RemoveUnusedCategories` | stereo/core/gene.py:236-246 | the table and the DataFrames held directly in `_matrix` and `_pairwise` are cleaned; nothing else changes, and a consistent object stays consistent |
| `GeneCore.Gene.CutMatrixEntries` | stereo/core/gene.py:188-194 | a step of `SubSet` only: the loop over `_matrix` replaces each supported entry by its cut and leaves other entries as they are |
| `GeneCore.Gene.CutPairwiseEntries` | stereo/core/gene.py:196-215 | a step of `SubSet` only: the loop over `_pairwise` replaces each supported entry by its cut |
| `GeneCore.Gene.SubSet` | stereo/core/gene.py:177-217 | returns the same object. The table holds exactly rows old[index[0]], …, old[index[n-1]], so size == \|index\|. All side entries are cut by the same index, the state stays consistent, and categories are then cleaned |
| `GeneLemmas.IndexerCount` | stereo/core/gene.py:70 | with unique gene names, a position is produced once per occurrence of its name |
| `GeneLemmas.FoundCount` | stereo/core/gene.py:71 | dropping -1 keeps the repeats of every found position |
| `GeneLemmas.FoundLabelsSubseq` | stereo/core/gene.py:69-71 | found positions are in range, and their names appear in the input order |
| `GeneLemmas.GetIndexOne` | stereo/core/gene.py:60-61 | a single int or str is treated as a one-element list |
| `GeneLemmas.GetIndexPositions` | stereo/core/gene.py:63-68 | for an integer list, the result is a subsequence of the list. Each used position keeps all its repeats, and every other value is dropped |
| `GeneLemmas.GetIndexNames` | stereo/core/gene.py:69-74 | for a name list over unique gene names, each used gene appears once per occurrence of its name. Unknown names are dropped, the result's names follow input order, and every position is < size |
| `GeneLemmas.GetIndexNamesNeedUniqueIndex` | stereo/core/gene.py:70 | a name list over duplicated gene names fails with InvalidIndexError |
| `GeneLemmas.SubsetTwice` | stereo/core/gene.py:177-217 | subsetting by i and then by j equals one subset by i[j], for the table, `_matrix` and `_pairwise` |
| `GeneLemmas.PairEntryTwice` | stereo/core/gene.py:196-215 | the same for one `_pairwise` entry, nested dictionaries included |
| `GeneLemmas.GridTwice` | stereo/core/gene.py:204 | cutting a square array twice equals one cut by the composed positions |
| `GeneLemmas.SubsetAllPositions` | stereo/core/gene.py:177-217 | subsetting by every position in order changes only the categories |
| `GeneLemmas.GridAll` | stereo/core/gene.py:204 | cutting a square array by every position returns it |
| `GeneLemmas.CleanIdempotent` | stereo/core/gene.py:236-246 | a second `_remove_unused_categories` changes nothing |
| `GeneLemmas.SquareCategories` | stereo/core/gene.py:196-216 | after a subset, each categorical column of a gene-by-gene DataFrame held in `_pairwise` holds the picked cells. It keeps exactly the categories still held by some cell, in original order and without repeats |
| `GeneLemmas.SubsetCategories` | stereo/core/gene.py:216 | after a subset, each categorical column keeps exactly the categories still held by some cell, in original order and without repeats |

## Left out

- `AnnBasedGene` (stereo/core/gene.py:248-327) is not modelled. It forwards to an
  AnnData object that is not part of this model. Its one local check is also left
  out: `gene_name` raises ValueError when the number of names differs from `n_vars`.
- `__init__` type checks are left out, because the model's types already exclude a
  non-DataFrame `var`.
- Passing `gene_name` together with `var` reindexes the table (the `gene_name` setter,
  stereo/core/gene.py:152-162). Missing labels then fill with NaN. This is not
  modelled.
- `real_gene_name`, `__getitem__` and `__setitem__` are not modelled. They are direct
  pandas column accesses.
- The `matrix`, `pairwise`, `var`, `shape`, `loc`, `iloc` and `to_csv` pass-throughs
  are not modelled. Nor are `to_df`, `__str__` and `_repr_html_`: they are display and
  I/O.
- dtype conversion (`astype('U')`) is not modelled. Gene names are strings throughout.
- `Gene.SubSet` requires every position to lie in 0..size-1. For a position at or
  past `size`, the source's `self._var.iloc[index]` raises IndexError before anything
  is assigned, so the object is left unchanged; that error path is not modelled.
  Negative positions, boolean masks and a `pd.Series` index
  (stereo/core/gene.py:184-185) are not modelled either.
- `Gene.SubSet` requires `Valid()`: every supported side entry has exactly one row
  per gene, and every pairwise DataFrame or two-axis array is exactly size × size.
  The source does not check this. A side entry shorter than the table makes
  `sub_set` raise IndexError part-way through when some position lies past that
  entry's length. By then `_var` and the entries before it have been cut. A side entry with more rows than genes, and a pairwise DataFrame or
  two-axis array larger than size × size, is cut without error in the source. The
  model admits none of these states.
- `Gene.SubSet` succeeds on an index that repeats a position, even when `_pairwise`
  holds a DataFrame at top level. The source fails there. Its `value.columns[index]`
  (stereo/core/gene.py:198-199) gives that DataFrame repeated column labels. Then
  `_remove_unused_categories` takes `value[col].dtype` on a repeated label, where
  `value[col]` is a DataFrame, and raises AttributeError
  (stereo/core/gene.py:244-245). By then every entry has been cut and some have been
  cleaned. The model returns the fully cut and cleaned state instead. It cleans
  columns by position and does not model this failure, whose partial result depends
  on dictionary order.
- `Frames.TakeSquare` selects the columns of a pairwise DataFrame by position. The
  source selects them by label (`value.columns[index]`), which agrees only when the
  column labels are distinct.
- `GeneCore.Consistent` requires the column labels of the gene table to be unique, so
  `Gene.FromFrame` does not accept a table with a repeated column label. With a
  repeated label, pandas returns a table rather than a column. `n_cells` then
  returns a 2-D array, and `get_index(only_highly_genes=True)` fails on the 2-D
  mask. `_remove_unused_categories` raises AttributeError, because a table has no
  `dtype`, so `sub_set` fails after cutting. None of this is modelled. DataFrames
  inside `_matrix` and `_pairwise` with repeated column labels are not modelled
  either: the model cleans each such column separately, where the source raises.
- `GeneCore.NestedEntry`: arrays inside a `_pairwise` dictionary are taken to have two
  axes. The source's `v[index][:, index]` raises for one axis and cuts the first two
  axes of a larger array.
- `GeneCore.MatrixEntry`: arrays with more than two axes are represented by their
  rows along the first axis. Zero-axis arrays are not modelled.
- `GeneCore.IsUsed`: only the cell `True` counts as a highly variable flag, and a
  missing value counts as False. `highly_variable` columns of other dtypes are not
  modelled.
- `GeneCore.Selector`: booleans and floats inside a gene list are not modelled. A
  collection mixing integers and names takes the name path, with the integers written
  in decimal, as numpy does for a Python list. An object-dtype ndarray or `pd.Index`
  keeps each item's type, so in the source the type of its first item picks the path.
  For example, `pd.Index([0, "GeneA"])` takes the integer path. The model treats every
  mixed collection as a list. Collections that are all integers or all names behave
  alike in the source and the model.
- `GeneCore.Gene.SetAnnotation`: scalar broadcasting and `pd.Series` index alignment
  in column assignment are not modelled. This applies to `SetNCells`, `SetNCounts`
  and `SetMeanUmi` as well.
- `GeneCore.Gene.SetAnnotation`: when a list is assigned to a table without rows,
  pandas gives the new rows the integer labels 0..k-1. The model holds them as their
  decimal texts, as `gene_name` shows them. The two differ on lookups by name. The
  source's `self.var.index.get_indexer` compares the text "0" with the integer label 0
  and finds no match. So on a grown table, `get_index(["0"])` gives an empty result in
  the source and `[0]` in the model.
  The side dictionaries are not resized, in the source or in the model. A supported
  side entry then no longer fits the table, and the model promises `Valid()` only
  when the number of rows is unchanged. The same applies to `SetNCells`,
  `SetNCounts` and `SetMeanUmi`.
- Logger warnings are not modelled: an unsupported entry is only "left unchanged".
- Aliasing is not modelled. The source mutates nested dictionaries and DataFrames in
  place, so other holders of those objects see the change. The model's entries are
  values.
- Dictionary iteration order is not modelled. Every entry is processed independently,
  so the order does not matter once out-of-range positions are excluded.
- stereo/constant.py is not part of this model. It holds only constants, a
  resolution lookup table and string enums.

=== FILE: frames.dfy ===
/** The pandas DataFrame as the gene table uses it: labelled rows, labelled columns,
    plain and categorical columns, positional row selection (`iloc`), column
    assignment and `remove_unused_categories`. */
module Frames {
  import opened Seqs

  /** One cell of a table; `Missing` stands for pandas' NaN / None. */
  datatype Cell = Missing | Flag(b: bool) | Number(x: real) | Text(s: string)

  /** A column: its cells, and for a categorical column also its ordered categories. */
  datatype Column =
    | Plain(cells: seq<Cell>)
    | Categorical(cells: seq<Cell>, categories: seq<Cell>)

  /** Row labels (`index`), column labels (`names`) and one column per label. */
  datatype Frame = Frame(index: seq<string>, names: seq<string>, columns: seq<Column>)

  /** A rectangular table: one column per label, one cell per row in every column. */
  predicate WellFormed(f: Frame) {
    |f.names| == |f.columns| &&
    forall j :: 0 <= j < |f.columns| ==> |f.columns[j].cells| == |f.index|
  }

  /** `frame[key].to_numpy()` when `key in frame.columns`, and None otherwise. */
  function Lookup(f: Frame, key: string): (r: Option<seq<Cell>>)
    requires WellFormed(f)
    ensures r.None? <==> key !in f.names
    ensures r.Some? ==> |r.value| == |f.index|
  {
    var j := Find(f.names, key);
    if j == -1 then None else Some(f.columns[j].cells)
  }

  /** `frame[key] = values`: the column labelled `key` is replaced by a plain column
      holding `values`, or appended as the last column when there is none. */
  function SetColumn(f: Frame, key: string, values: seq<Cell>): (r: Frame)
    requires WellFormed(f) && |values| == |f.index|
    ensures WellFormed(r) && r.index == f.index
    ensures r.names == if key in f.names then f.names else f.names + [key]
    ensures Distinct(f.names) ==> Distinct(r.names)
  {
    var j := Find(f.names, key);
    if j == -1 then
      assert forall a :: 0 <= a < |f.names| ==> f.names[a] in f.names;
      Frame(f.index, f.names + [key], f.columns + [Plain(values)])
    else f.(columns := f.columns[j := Plain(values)])
  }

  /** `k` missing cells. */
  function Blank(k: nat): (r: seq<Cell>)
    ensures |r| == k && forall a :: 0 <= a < k ==> r[a] == Missing
  {
    seq(k, _ => Missing)
  }

  /** A list assigned as a column of a table without rows first gives the table one row
      per value: the row labels become `labels`, and every existing column keeps its
      kind and categories and holds only missing cells. */
  function GrowRows(f: Frame, labels: seq<string>): (r: Frame)
    requires WellFormed(f) && |f.index| == 0
    ensures WellFormed(r) && r.index == labels && r.names == f.names
    ensures |r.columns| == |f.columns|
    ensures forall j :: 0 <= j < |f.columns| ==>
              r.columns[j].cells == Blank(|labels|) && r.columns[j].Categorical? == f.columns[j].Categorical?
    ensures forall j :: 0 <= j < |f.columns| && f.columns[j].Categorical? ==>
              r.columns[j].categories == f.columns[j].categories
  {
    var blank := Blank(|labels|);
    var columns := seq(|f.columns|, j requires 0 <= j < |f.columns| => f.columns[j].(cells := blank));
    assert forall j :: 0 <= j < |columns| ==> columns[j].cells == blank;
    Frame(labels, f.names, columns)
  }

  /** After the table grows, every existing column reads as missing cells and no other
      label is a column. */
  lemma GrowRowsLookup(f: Frame, labels: seq<string>, key: string)
    requires WellFormed(f) && |f.index| == 0
    ensures Lookup(GrowRows(f, labels), key) ==
              if key in f.names then Some(Blank(|labels|)) else None
  {
  }

  /** The rows of one column at the positions `idx`; categories are kept as they are. */
  function TakeCells(c: Column, idx: seq<int>): (r: Column)
    requires InRange(idx, |c.cells|)
    ensures r.cells == Pick(c.cells, idx) && r.Categorical? == c.Categorical?
    ensures c.Categorical? ==> r.categories == c.categories
  {
    c.(cells := Pick(c.cells, idx))
  }

  /** `frame.iloc[idx]`: the rows at the positions `idx`, in that order, repeats included;
      row labels follow their rows, column labels stay. */
  function TakeRows(f: Frame, idx: seq<int>): (r: Frame)
    requires WellFormed(f) && InRange(idx, |f.index|)
    ensures WellFormed(r) && r.names == f.names && r.index == Pick(f.index, idx)
    ensures |r.columns| == |f.columns|
    ensures forall j :: 0 <= j < |f.columns| ==> r.columns[j] == TakeCells(f.columns[j], idx)
  {
    Frame(Pick(f.index, idx), f.names,
          seq(|f.columns|, j requires 0 <= j < |f.columns| => TakeCells(f.columns[j], idx)))
  }

  /** A gene-by-gene table: as many columns as rows. */
  predicate IsSquare(f: Frame, n: nat) {
    WellFormed(f) && |f.index| == n && |f.names| == n
  }

  /** `frame.iloc[idx][frame.columns[idx]]` on a square table: rows and columns are both
      taken at the positions `idx`, so the cell at (a, b) is the old cell at
      (idx[a], idx[b]). Columns are selected by position (see README). */
  function TakeSquare(f: Frame, idx: seq<int>, ghost n: nat): (r: Frame)
    requires IsSquare(f, n) && InRange(idx, n)
    ensures IsSquare(r, |idx|)
    ensures r.index == Pick(f.index, idx) && r.names == Pick(f.names, idx)
    ensures forall a, b :: 0 <= a < |idx| && 0 <= b < |idx| ==>
              r.columns[b].cells[a] == f.columns[idx[b]].cells[idx[a]]
    ensures forall b :: 0 <= b < |idx| ==>
              r.columns[b].Categorical? == f.columns[idx[b]].Categorical? &&
              (f.columns[idx[b]].Categorical? ==> r.columns[b].categories == f.columns[idx[b]].categories)
  {
    Frame(Pick(f.index, idx), Pick(f.names, idx),
          seq(|idx|, b requires 0 <= b < |idx| => TakeCells(f.columns[idx[b]], idx)))
  }

  /** `column.cat.remove_unused_categories()` on a categorical column; other columns
      are left alone. */
  function CleanColumn(c: Column): (r: Column)
    ensures r.cells == c.cells && r.Categorical? == c.Categorical?
    ensures c.Plain? ==> r == c
    ensures c.Categorical? ==>
              IsSubseq(r.categories, c.categories) &&
              forall x :: x in r.categories <==> x in c.categories && x in c.cells
  {
    match c
    case Plain(_) => c
    case Categorical(cells, categories) =>
      KeepInSubseq(categories, cells);
      Categorical(cells, KeepIn(categories, cells))
  }

  /** Every categorical column of the table cleaned of unused categories. */
  function CleanFrame(f: Frame): (r: Frame)
    ensures r.index == f.index && r.names == f.names && |r.columns| == |f.columns|
    ensures forall j :: 0 <= j < |f.columns| ==> r.columns[j] == CleanColumn(f.columns[j])
    ensures WellFormed(f) ==> WellFormed(r)
  {
    f.(columns := seq(|f.columns|, j requires 0 <= j < |f.columns| => CleanColumn(f.columns[j])))
  }

  /** The loop over the columns of one table that rewrites each categorical column
      without its unused categories. */
  method DropUnusedCategories(f: Frame) returns (g: Frame)
    ensures g == CleanFrame(f)
  {
    g := f;
    for j := 0 to |f.columns|
      invariant g.index == f.index && g.names == f.names && |g.columns| == |f.columns|
      invariant forall k :: 0 <= k < j ==> g.columns[k] == CleanColumn(f.columns[k])
      invariant forall k :: j <= k < |f.columns| ==> g.columns[k] == f.columns[k]
    {
      match g.columns[j]
      case Categorical(_, _) =>
        g := g.(columns := g.columns[j := CleanColumn(g.columns[j])]);
      case Plain(_) =>
    }
  }

  /** Reading a column back after assigning it gives the assigned values, and no other
      column changes. */
  lemma SetColumnLookup(f: Frame, key: string, values: seq<Cell>)
    requires WellFormed(f) && |values| == |f.index|
    ensures Lookup(SetColumn(f, key, values), key) == Some(values)
    ensures forall other :: other != key ==>
              Lookup(SetColumn(f, key, values), other) == Lookup(f, other)
  {
    var r := SetColumn(f, key, values);
    var j := Find(f.names, key);
    if j == -1 {
      FindFirst(r.names, key, |f.names|);
      forall other | other != key
        ensures Lookup(r, other) == Lookup(f, other)
      {
        var i := Find(f.names, other);
        if i != -1 {
          assert r.names[..i] == f.names[..i];
          FindFirst(r.names, other, i);
        }
      }
    } else {
      FindFirst(r.names, key, j);
    }
  }

  /** Selecting rows of a selection is one selection by the composed positions. */
  lemma TakeRowsTwice(f: Frame, i: seq<int>, j: seq<int>)
    requires WellFormed(f) && InRange(i, |f.index|) && InRange(j, |i|)
    ensures InRange(Pick(i, j), |f.index|)
    ensures TakeRows(TakeRows(f, i), j) == TakeRows(f, Pick(i, j))
  {
    PickPick(f.index, i, j);
    forall c | 0 <= c < |f.columns| {
      PickPick(f.columns[c].cells, i, j);
    }
  }

  /** Cutting a square table twice is one cut by the composed positions. */
  lemma TakeSquareTwice(f: Frame, i: seq<int>, j: seq<int>, n: nat)
    requires IsSquare(f, n) && InRange(i, n) && InRange(j, |i|)
    ensures InRange(Pick(i, j), n)
    ensures TakeSquare(TakeSquare(f, i, n), j, |i|) == TakeSquare(f, Pick(i, j), n)
  {
    PickPick(f.index, i, j);
    PickPick(f.names, i, j);
    forall c | 0 <= c < |j| {
      PickPick(f.columns[i[j[c]]].cells, i, j);
    }
  }

  /** Cutting a column twice, cleaning its categories after each cut, leaves the same
      column as one cut by the composed positions followed by one cleaning. */
  lemma CleanTakeTwice(c: Column, i: seq<int>, j: seq<int>)
    requires InRange(i, |c.cells|) && InRange(j, |i|)
    ensures InRange(Pick(i, j), |c.cells|)
    ensures CleanColumn(TakeCells(CleanColumn(TakeCells(c, i)), j))
         == CleanColumn(TakeCells(c, Pick(i, j)))
  {
    PickPick(c.cells, i, j);
    if c.Categorical? {
      var once := Pick(c.cells, i);
      var twice := Pick(once, j);
      forall x | x in twice ensures x in once {
        var a :| 0 <= a < |twice| && twice[a] == x;
        assert once[j[a]] == x;
      }
      KeepInNarrow(c.categories, once, twice);
    }
  }

  /** Cutting a table twice, cleaning after each cut, is one cut by the composed positions
      and one cleaning. */
  lemma CleanTakeRowsTwice(f: Frame, i: seq<int>, j: seq<int>)
    requires WellFormed(f) && InRange(i, |f.index|) && InRange(j, |i|)
    ensures InRange(Pick(i, j), |f.index|)
    ensures CleanFrame(TakeRows(CleanFrame(TakeRows(f, i)), j)) == CleanFrame(TakeRows(f, Pick(i, j)))
  {
    PickPick(f.index, i, j);
    forall c | 0 <= c < |f.columns| {
      CleanTakeTwice(f.columns[c], i, j);
    }
  }

  lemma CleanTakeSquareTwice(f: Frame, i: seq<int>, j: seq<int>, n: nat)
    requires IsSquare(f, n) && InRange(i, n) && InRange(j, |i|)
    ensures InRange(Pick(i, j), n)
    ensures CleanFrame(TakeSquare(CleanFrame(TakeSquare(f, i, n)), j, |i|))
         == CleanFrame(TakeSquare(f, Pick(i, j), n))
  {
    PickPick(f.index, i, j);
    PickPick(f.names, i, j);
    forall c | 0 <= c < |j| {
      CleanTakeTwice(f.columns[i[j[c]]], i, j);
    }
  }

  /** Cleaning categories a second time changes nothing. */
  lemma CleanFrameIdempotent(f: Frame)
    ensures CleanFrame(CleanFrame(f)) == CleanFrame(f)
  {
    forall c | 0 <= c < |f.columns| ensures CleanColumn(CleanColumn(f.columns[c])) == CleanColumn(f.columns[c]) {
      var col := f.columns[c];
      if col.Categorical? {
        KeepInNarrow(col.categories, col.cells, col.cells);
      }
    }
  }

  /** Selecting every row in order, and cleaning, only cleans. */
  lemma TakeAllRows(f: Frame)
    requires WellFormed(f)
    ensures TakeRows(f, Range(|f.index|)) == f
  {
    PickRange(f.index);
    forall c | 0 <= c < |f.columns| {
      PickRange(f.columns[c].cells);
    }
  }

  lemma TakeAllSquare(f: Frame, n: nat)
    requires IsSquare(f, n)
    ensures TakeSquare(f, Range(n), n) == f
  {
    PickRange(f.index);
    PickRange(f.names);
    forall c | 0 <= c < n {
      PickRange(f.columns[c].cells);
    }
  }
}

=== FILE: gene.dfy ===
/** The per-gene annotation table of stereopy (`Gene` in stereo/core/gene.py): a table
    with one row per gene (`_var`), a dictionary of per-gene row blocks (`_matrix`)
    and a dictionary of gene-by-gene matrices (`_pairwise`), kept the same length
    when the genes are subset. */
module GeneCore {
  import opened Seqs
  import opened Frames

  datatype Error = TypeError | IndexError | InvalidIndexError | ValueError

  datatype Result<T> = Ok(value: T) | Err(error: Error)

  const HighlyVariable := "highly_variable"
  const NCellsKey := "n_cells"
  const NCountsKey := "n_counts"
  const MeanUmiKey := "mean_umi"

  // ---------------------------------------------------------------------------
  // Gene selectors (`gene_list` of `get_index`)

  /** One element of a gene list: an integer position or a gene name. */
  datatype Item = Pos(i: int) | Name(s: string)

  /** `gene_list`: None, a single int or str, a list / ndarray / Index of items, or a
      value of any other type. */
  datatype Selector = AllGenes | One(item: Item) | Many(items: seq<Item>) | Unsupported(kind: string)

  /** numpy gives a list of integers an integer array; one string among them makes it a
      string array. */
  predicate AllPositions(items: seq<Item>) {
    forall a :: 0 <= a < |items| ==> items[a].Pos?
  }

  function Ints(items: seq<Item>): (r: seq<int>)
    requires AllPositions(items)
    ensures |r| == |items|
  {
    seq(|items|, a requires 0 <= a < |items| => items[a].i)
  }

  function DigitChar(d: nat): (c: char)
    requires d < 10
    ensures '0' <= c <= '9' && c as int - '0' as int == d
  {
    ('0' as int + d) as char
  }

  /** The decimal digits of `n`, most significant first, without leading zeros. */
  function Digits(n: nat): (r: string)
    ensures r != [] && forall c :: c in r ==> '0' <= c <= '9'
    ensures r[0] == '0' ==> r == "0"
    decreases n
  {
    if n < 10 then [DigitChar(n)] else Digits(n / 10) + [DigitChar(n % 10)]
  }

  /** numpy's text of an integer in a string array: its decimal digits, after a minus
      sign when it is negative. */
  function DecimalString(i: int): (r: string)
    ensures r != [] && (i < 0 <==> r[0] == '-')
    ensures var start := if i < 0 then 1 else 0;
            start < |r| && (forall k :: start <= k < |r| ==> '0' <= r[k] <= '9') &&
            (r[start] == '0' ==> r == "0")
    ensures ParseDecimal(r) == i
  {
    DigitsRoundTrip(if i < 0 then -i else i);
    if i < 0 then
      var d := Digits(-i);
      var r := "-" + d;
      assert r[1..] == d;
      assert forall k :: 1 <= k < |r| ==> r[k] == d[k - 1] && d[k - 1] in d;
      assert d != "0" by {
        assert DigitsValue("0") == 0;
      }
      r
    else
      var r := Digits(i);
      assert forall k :: 0 <= k < |r| ==> r[k] in r;
      r
  }

  /** The value of a string of decimal digits, most significant first. */
  function DigitsValue(s: string): int {
    if s == [] then 0 else DigitsValue(s[..|s| - 1]) * 10 + (s[|s| - 1] as int - '0' as int)
  }

  /** Reading an integer back from its decimal text: the inverse of `DecimalString`. */
  function ParseDecimal(s: string): int {
    if s != [] && s[0] == '-' then -DigitsValue(s[1..]) else DigitsValue(s)
  }

  lemma {:induction false} DigitsRoundTrip(n: nat)
    ensures DigitsValue(Digits(n)) == n
    decreases n
  {
    if n >= 10 {
      DigitsRoundTrip(n / 10);
      var d := Digits(n);
      assert d[..|d| - 1] == Digits(n / 10);
    }
  }

  /** Two integers of a gene list are rendered as the same name only when they are equal. */
  lemma DecimalStringInjective(i: int, j: int)
    ensures DecimalString(i) == DecimalString(j) <==> i == j
  {
    if DecimalString(i) == DecimalString(j) {
      assert ParseDecimal(DecimalString(i)) == ParseDecimal(DecimalString(j));
    }
  }

  /** The labels of a new `RangeIndex` of `k` rows, as `gene_name` shows them: the
      decimal texts of 0, 1, ..., k - 1. */
  function RowLabels(k: nat): (r: seq<string>)
    ensures |r| == k && Distinct(r)
    ensures forall a :: 0 <= a < k ==> r[a] == DecimalString(a) && ParseDecimal(r[a]) == a
  {
    seq(k, a requires 0 <= a < k => DecimalString(a))
  }

  /** An item as numpy stores it in a string array. */
  function Render(item: Item): (r: string)
    ensures item.Name? ==> r == item.s
    ensures item.Pos? ==> r == DecimalString(item.i) && ParseDecimal(r) == item.i
  {
    match item
    case Pos(i) => DecimalString(i)
    case Name(s) => s
  }

  /** `np.array(gene_list)` for a list holding at least one name: every item becomes text,
      names as they are and integers as their decimal text. */
  function Texts(items: seq<Item>): (r: seq<string>)
    ensures |r| == |items|
    ensures forall a :: 0 <= a < |items| && items[a].Name? ==> r[a] == items[a].s
    ensures forall a :: 0 <= a < |items| && items[a].Pos? ==>
              r[a] == DecimalString(items[a].i) && ParseDecimal(r[a]) == items[a].i
  {
    seq(|items|, a requires 0 <= a < |items| => Render(items[a]))
  }

  /** `index.get_indexer(labels)`: for each label its position in `index`, or -1. */
  function Indexer(index: seq<string>, labels: seq<string>): (r: seq<int>)
    ensures |r| == |labels|
    ensures forall a :: 0 <= a < |labels| ==> r[a] == Find(index, labels[a])
  {
    if labels == [] then [] else [Find(index, labels[0])] + Indexer(index, labels[1..])
  }

  /** `gene_index[gene_index != -1]`: the positions of the labels that were found. */
  function Found(gi: seq<int>): (r: seq<int>)
    ensures forall x :: x in r <==> x in gi && x != -1
  {
    if gi == [] then [] else (if gi[0] == -1 then [] else [gi[0]]) + Found(gi[1..])
  }

  // ---------------------------------------------------------------------------
  // The positions `get_index` starts from

  /** Position `p` is one `get_index` may return: a gene of the table and, when only
      highly variable genes are asked for and the column exists, one flagged True there
      (a missing flag counts as False). */
  predicate IsUsed(f: Frame, p: int, onlyHighly: bool)
    requires WellFormed(f)
  {
    0 <= p < |f.index| &&
    (onlyHighly && HighlyVariable in f.names ==> Lookup(f, HighlyVariable).value[p] == Flag(true))
  }

  /** `np.arange(len(mask))[mask.fillna(False)]`: the positions flagged True, ascending. */
  function TruePositions(mask: seq<Cell>): (r: seq<int>)
    ensures StrictlyIncreasing(r)
    ensures forall p :: p in r <==> 0 <= p < |mask| && mask[p] == Flag(true)
  {
    if mask == [] then []
    else
      var init := TruePositions(mask[..|mask| - 1]);
      assert forall a :: 0 <= a < |init| ==> init[a] in init;
      if mask[|mask| - 1] == Flag(true) then init + [|mask| - 1] else init
  }

  /** `used_gene_index`: every position, or only the flagged ones. */
  function UsedPositions(f: Frame, onlyHighly: bool): (r: seq<int>)
    requires WellFormed(f)
    ensures StrictlyIncreasing(r)
    ensures forall p :: p in r <==> IsUsed(f, p, onlyHighly)
  {
    if onlyHighly && HighlyVariable in f.names then TruePositions(Lookup(f, HighlyVariable).value)
    else Range(|f.index|)
  }

  /** The list branch of `get_index`: an empty list fails on `gene_list[0]`; integers are
      filtered to the used positions; names are looked up (which needs unique gene
      names), unknown ones dropped, and the rest filtered to the used positions. */
  function Locate(index: seq<string>, items: seq<Item>, used: seq<int>): (r: Result<seq<int>>)
    ensures r.Ok? ==> forall x :: x in r.value ==> x in used
    ensures r.Err? ==> (r.error == IndexError && items == []) ||
                       (r.error == InvalidIndexError && !Distinct(index) && !AllPositions(items))
  {
    if |items| == 0 then Err(IndexError)
    else if AllPositions(items) then Ok(KeepIn(Ints(items), used))
    else if !Distinct(index) then Err(InvalidIndexError)
    else Ok(KeepIn(Found(Indexer(index, Texts(items))), used))
  }

  // ---------------------------------------------------------------------------
  // Entries of `_matrix` and `_pairwise`

  /** A `_matrix` value: a DataFrame, an ndarray or sparse matrix (as its rows along the
      first axis), or a value of another type. */
  datatype MatrixEntry =
    | MatrixFrame(frame: Frame)
    | MatrixArray(rows: seq<seq<Cell>>)
    | MatrixOther(kind: string)

  /** A value inside a dictionary held in `_pairwise`. */
  datatype NestedEntry =
    | NestedFrame(frame: Frame)
    | NestedArray(rows: seq<seq<Cell>>)
    | NestedOther(kind: string)

  /** A `_pairwise` value: a DataFrame, an ndarray or sparse matrix with its number of
      axes (`rows` is the matrix when there are two), a dictionary, or another value. */
  datatype PairEntry =
    | PairFrame(frame: Frame)
    | PairArray(ndim: nat, rows: seq<seq<Cell>>)
    | PairDict(entries: map<string, NestedEntry>)
    | PairOther(kind: string)

  predicate SquareGrid(rows: seq<seq<Cell>>, n: nat) {
    |rows| == n && forall a :: 0 <= a < n ==> |rows[a]| == n
  }

  /** A `_matrix` value has one row per gene. */
  predicate MatrixFits(e: MatrixEntry, n: nat) {
    match e
    case MatrixFrame(f) => WellFormed(f) && |f.index| == n
    case MatrixArray(rows) => |rows| == n
    case MatrixOther(_) => true
  }

  predicate NestedFits(e: NestedEntry, n: nat) {
    match e
    case NestedFrame(f) => IsSquare(f, n)
    case NestedArray(rows) => SquareGrid(rows, n)
    case NestedOther(_) => true
  }

  /** A `_pairwise` value is gene by gene, down to the matrices of a dictionary. */
  predicate PairFits(e: PairEntry, n: nat) {
    match e
    case PairFrame(f) => IsSquare(f, n)
    case PairArray(d, rows) => d == 2 ==> SquareGrid(rows, n)
    case PairDict(m) => forall k :: k in m ==> NestedFits(m[k], n)
    case PairOther(_) => true
  }

  /** The consistency the subsetting keeps: the table is rectangular with unique column
      labels (a repeated label would make `gene[key]` a table rather than a column), and
      every supported side entry has as many rows (and, for pairwise ones, columns) as
      there are genes. */
  predicate Consistent(f: Frame, matrix: map<string, MatrixEntry>, pairwise: map<string, PairEntry>) {
    WellFormed(f) && Distinct(f.names) &&
    (forall k :: k in matrix ==> MatrixFits(matrix[k], |f.index|)) &&
    (forall k :: k in pairwise ==> PairFits(pairwise[k], |f.index|))
  }

  /** `value[index][:, index]`: the square submatrix, cell (a, b) taken from
      (idx[a], idx[b]). */
  function CutGrid(rows: seq<seq<Cell>>, idx: seq<int>, ghost n: nat): (r: seq<seq<Cell>>)
    requires SquareGrid(rows, n) && InRange(idx, n)
    ensures SquareGrid(r, |idx|)
    ensures forall a, b :: 0 <= a < |idx| && 0 <= b < |idx| ==> r[a][b] == rows[idx[a]][idx[b]]
  {
    seq(|idx|, a requires 0 <= a < |idx| => Pick(rows[idx[a]], idx))
  }

  /** One `_matrix` value after `sub_set`: frames and arrays keep the rows at `idx`;
      any other value is left as it is. */
  function CutMatrixEntry(e: MatrixEntry, idx: seq<int>, ghost n: nat): (r: MatrixEntry)
    requires MatrixFits(e, n) && InRange(idx, n)
    ensures MatrixFits(r, |idx|)
    ensures e.MatrixOther? ==> r == e
  {
    match e
    case MatrixFrame(f) => MatrixFrame(TakeRows(f, idx))
    case MatrixArray(rows) => MatrixArray(Pick(rows, idx))
    case MatrixOther(_) => e
  }

  function CutNestedEntry(e: NestedEntry, idx: seq<int>, ghost n: nat): (r: NestedEntry)
    requires NestedFits(e, n) && InRange(idx, n)
    ensures NestedFits(r, |idx|)
    ensures e.NestedOther? ==> r == e
  {
    match e
    case NestedFrame(f) => NestedFrame(TakeSquare(f, idx, n))
    case NestedArray(rows) => NestedArray(CutGrid(rows, idx, n))
    case NestedOther(_) => e
  }

  function CutDict(m: map<string, NestedEntry>, idx: seq<int>, ghost n: nat): (r: map<string, NestedEntry>)
    requires (forall k :: k in m ==> NestedFits(m[k], n)) && InRange(idx, n)
    ensures r.Keys == m.Keys && forall k :: k in r ==> NestedFits(r[k], |idx|)
  {
    map k | k in m :: CutNestedEntry(m[k], idx, n)
  }

  /** One `_pairwise` value after `sub_set`: frames and two-axis arrays become their
      square submatrix, dictionaries have each value cut, and arrays with another number
      of axes and values of other types are left as they are. */
  function CutPairEntry(e: PairEntry, idx: seq<int>, ghost n: nat): (r: PairEntry)
    requires PairFits(e, n) && InRange(idx, n)
    ensures PairFits(r, |idx|)
    ensures e.PairOther? || (e.PairArray? && e.ndim != 2) ==> r == e
  {
    match e
    case PairFrame(f) => PairFrame(TakeSquare(f, idx, n))
    case PairArray(d, rows) => if d != 2 then e else PairArray(d, CutGrid(rows, idx, n))
    case PairDict(m) => PairDict(CutDict(m, idx, n))
    case PairOther(_) => e
  }

  function CutMatrix(m: map<string, MatrixEntry>, idx: seq<int>, ghost n: nat): (r: map<string, MatrixEntry>)
    requires (forall k :: k in m ==> MatrixFits(m[k], n)) && InRange(idx, n)
    ensures r.Keys == m.Keys && forall k :: k in r ==> MatrixFits(r[k], |idx|)
  {
    map k | k in m :: CutMatrixEntry(m[k], idx, n)
  }

  function CutPairwise(m: map<string, PairEntry>, idx: seq<int>, ghost n: nat): (r: map<string, PairEntry>)
    requires (forall k :: k in m ==> PairFits(m[k], n)) && InRange(idx, n)
    ensures r.Keys == m.Keys && forall k :: k in r ==> PairFits(r[k], |idx|)
  {
    map k | k in m :: CutPairEntry(m[k], idx, n)
  }

  /** `_remove_unused_categories` on one `_matrix` value: only DataFrames are touched. */
  function CleanMatrixEntry(e: MatrixEntry): (r: MatrixEntry)
    ensures forall n: nat :: MatrixFits(e, n) ==> MatrixFits(r, n)
    ensures !e.MatrixFrame? ==> r == e
  {
    match e
    case MatrixFrame(f) => MatrixFrame(CleanFrame(f))
    case _ => e
  }

  /** On one `_pairwise` value only a DataFrame held directly is touched; frames inside a
      dictionary keep their categories. */
  function CleanPairEntry(e: PairEntry): (r: PairEntry)
    ensures forall n: nat :: PairFits(e, n) ==> PairFits(r, n)
    ensures !e.PairFrame? ==> r == e
  {
    match e
    case PairFrame(f) => PairFrame(CleanFrame(f))
    case _ => e
  }

  function CleanMatrix(m: map<string, MatrixEntry>): (r: map<string, MatrixEntry>)
    ensures r.Keys == m.Keys
  {
    map k | k in m :: CleanMatrixEntry(m[k])
  }

  function CleanPairwise(m: map<string, PairEntry>): (r: map<string, PairEntry>)
    ensures r.Keys == m.Keys
  {
    map k | k in m :: CleanPairEntry(m[k])
  }

  /** The inner loop of `sub_set` over a dictionary held in `_pairwise`, replacing each
      value by its cut. */
  method SubsetNestedDict(m: map<string, NestedEntry>, idx: seq<int>, ghost n: nat)
    returns (out: map<string, NestedEntry>)
    requires (forall k :: k in m ==> NestedFits(m[k], n)) && InRange(idx, n)
    ensures out == CutDict(m, idx, n)
  {
    out := m;
    var keys := m.Keys;
    while keys != {}
      invariant keys <= m.Keys && out.Keys == m.Keys
      invariant forall k :: k in out ==>
                  out[k] == if k in keys then m[k] else CutNestedEntry(m[k], idx, n)
      decreases keys
    {
      var k :| k in keys;
      match out[k] {
        case NestedFrame(f) =>
          out := out[k := NestedFrame(TakeSquare(f, idx, n))];
        case NestedArray(rows) =>
          out := out[k := NestedArray(CutGrid(rows, idx, n))];
        case NestedOther(_) =>
          // not supported: a warning is logged and the value stays
      }
      keys := keys - {k};
    }
  }

  /** Subsetting a consistent state by in-range positions gives a consistent state whose
      size is the number of positions. */
  lemma SubsetConsistent(f: Frame, matrix: map<string, MatrixEntry>, pairwise: map<string, PairEntry>, idx: seq<int>)
    requires Consistent(f, matrix, pairwise) && InRange(idx, |f.index|)
    ensures Consistent(CleanFrame(TakeRows(f, idx)),
                       CleanMatrix(CutMatrix(matrix, idx, |f.index|)),
                       CleanPairwise(CutPairwise(pairwise, idx, |f.index|)))
    ensures |CleanFrame(TakeRows(f, idx)).index| == |idx|
  {
  }

  // ---------------------------------------------------------------------------
  // The `Gene` object

  class Gene {
    /** `_var`: one row per gene, labelled by the gene names. */
    var frame: Frame
    /** `_matrix`: per-gene row blocks by key. */
    var matrix: map<string, MatrixEntry>
    /** `_pairwise`: gene-by-gene matrices, or dictionaries of them, by key. */
    var pairwise: map<string, PairEntry>

    ghost predicate Valid()
      reads this
    {
      Consistent(frame, matrix, pairwise)
    }

    /** `Gene(var=f)`. */
    constructor FromFrame(f: Frame)
      requires WellFormed(f) && Distinct(f.names)
      ensures Valid() && frame == f && matrix == map[] && pairwise == map[]
    {
      frame := f;
      matrix := map[];
      pairwise := map[];
    }

    /** `Gene(gene_name=names)`: a table with the gene names as labels and no columns. */
    constructor FromNames(names: seq<string>)
      ensures Valid() && frame == Frame(names, [], []) && matrix == map[] && pairwise == map[]
    {
      frame := Frame(names, [], []);
      matrix := map[];
      pairwise := map[];
    }

    /** `size`: the number of gene names. */
    function Size(): (n: nat)
      reads this
      ensures n == |frame.index|
    {
      |frame.index|
    }

    /** `len(gene)`. */
    function Len(): (n: nat)
      reads this
      ensures n == Size()
    {
      Size()
    }

    /** `item in gene`: whether the table has a column labelled `item`. */
    function Contains(item: string): (b: bool)
      reads this
      requires Valid()
      ensures b <==> Lookup(frame, item).Some?
    {
      item in frame.names
    }

    /** `n_cells`: the column's values, or None when the table has no such column. */
    function NCells(): (r: Option<seq<Cell>>)
      reads this
      requires Valid()
      ensures r.None? <==> !Contains(NCellsKey)
      ensures r.Some? ==> |r.value| == Size()
    {
      Lookup(frame, NCellsKey)
    }

    /** `n_counts`, as `n_cells`. */
    function NCounts(): (r: Option<seq<Cell>>)
      reads this
      requires Valid()
      ensures r.None? <==> !Contains(NCountsKey)
      ensures r.Some? ==> |r.value| == Size()
    {
      Lookup(frame, NCountsKey)
    }

    /** `mean_umi`, as `n_cells`. */
    function MeanUmi(): (r: Option<seq<Cell>>)
      reads this
      requires Valid()
      ensures r.None? <==> !Contains(MeanUmiKey)
      ensures r.Some? ==> |r.value| == Size()
    {
      Lookup(frame, MeanUmiKey)
    }

    /** `get_index(gene_list, only_highly_genes)`. */
    function GetIndex(sel: Selector, onlyHighly: bool): (r: Result<seq<int>>)
      reads this
      requires Valid()
      ensures sel.Unsupported? ==> r == Err(TypeError)
      ensures sel == Many([]) ==> r == Err(IndexError)
      ensures r.Err? ==> (r.error == TypeError && sel.Unsupported?) ||
                         (r.error == IndexError && sel == Many([])) ||
                         (r.error == InvalidIndexError && !Distinct(frame.index))
      ensures sel.AllGenes? ==>
                r.Ok? && StrictlyIncreasing(r.value) &&
                forall p :: p in r.value <==> IsUsed(frame, p, onlyHighly)
      ensures r.Ok? ==> forall k :: 0 <= k < |r.value| ==> IsUsed(frame, r.value[k], onlyHighly)
    {
      var used := UsedPositions(frame, onlyHighly);
      match sel
      case AllGenes => Ok(used)
      case One(item) => Locate(frame.index, [item], used)
      case Many(items) => Locate(frame.index, items, used)
      case Unsupported(_) => Err(TypeError)
    }

    /** The setters of `n_cells`, `n_counts` and `mean_umi`: None changes nothing. On a
        table with rows, values of another length fail as pandas does, and otherwise
        the column is replaced or appended. On a table without rows, a non-empty list
        first gives the table one row per value (labelled 0, 1, ...), with every
        existing column missing there; the side dictionaries are not resized. */
    method SetAnnotation(key: string, values: Option<seq<Cell>>) returns (err: Option<Error>)
      requires Valid()
      modifies this
      ensures WellFormed(frame) && Distinct(frame.names)
      ensures Size() == old(Size()) ==> Valid()
      ensures matrix == old(matrix) && pairwise == old(pairwise)
      ensures values.None? ==> err.None? && frame == old(frame)
      ensures values.Some? ==> (err.None? <==> old(Size()) == 0 || |values.value| == old(Size()))
      ensures values.Some? && err.Some? ==> err == Some(ValueError) && frame == old(frame)
      ensures values.Some? && |values.value| == old(Size()) ==>
                frame == SetColumn(old(frame), key, values.value)
      ensures values.Some? && old(Size()) == 0 && |values.value| > 0 ==>
                frame == SetColumn(GrowRows(old(frame), RowLabels(|values.value|)), key, values.value)
      ensures values.Some? && err.None? ==> Size() == |values.value| && Lookup(frame, key) == values
      ensures Size() == old(Size()) ==>
                forall other :: other != key ==> Lookup(frame, other) == old(Lookup(frame, other))
      ensures Size() != old(Size()) ==>
                forall other :: other != key ==>
                  Lookup(frame, other) == if other in old(frame.names) then Some(Blank(Size())) else None
    {
      err := None;
      if values.Some? {
        var v := values.value;
        if |frame.index| == 0 && |v| > 0 {
          var grown := GrowRows(frame, RowLabels(|v|));
          SetColumnLookup(grown, key, v);
          forall other | other != key
            ensures Lookup(grown, other) == if other in frame.names then Some(Blank(|v|)) else None
          {
            GrowRowsLookup(frame, RowLabels(|v|), other);
          }
          frame := SetColumn(grown, key, v);
        } else if |v| != |frame.index| {
          err := Some(ValueError);
        } else {
          SetColumnLookup(frame, key, v);
          frame := SetColumn(frame, key, v);
        }
      }
    }

    method SetNCells(values: Option<seq<Cell>>) returns (err: Option<Error>)
      requires Valid()
      modifies this
      ensures WellFormed(frame) && Distinct(frame.names)
      ensures Size() == old(Size()) ==> Valid()
      ensures matrix == old(matrix) && pairwise == old(pairwise)
      ensures values.None? ==> err.None? && frame == old(frame)
      ensures values.Some? ==> (err.None? <==> old(Size()) == 0 || |values.value| == old(Size()))
      ensures values.Some? && err.Some? ==> err == Some(ValueError) && frame == old(frame)
      ensures values.Some? && |values.value| == old(Size()) ==>
                frame == SetColumn(old(frame), NCellsKey, values.value)
      ensures values.Some? && old(Size()) == 0 && |values.value| > 0 ==>
                frame == SetColumn(GrowRows(old(frame), RowLabels(|values.value|)), NCellsKey, values.value)
      ensures values.Some? && err.None? ==> Size() == |values.value| && Lookup(frame, NCellsKey) == values
      ensures Size() == old(Size()) ==>
                forall other :: other != NCellsKey ==> Lookup(frame, other) == old(Lookup(frame, other))
      ensures Size() != old(Size()) ==>
                forall other :: other != NCellsKey ==>
                  Lookup(frame, other) == if other in old(frame.names) then Some(Blank(Size())) else None
    {
      err := SetAnnotation(NCellsKey, values);
    }

    method SetNCounts(values: Option<seq<Cell>>) returns (err: Option<Error>)
      requires Valid()
      modifies this
      ensures WellFormed(frame) && Distinct(frame.names)
      ensures Size() == old(Size()) ==> Valid()
      ensures matrix == old(matrix) && pairwise == old(pairwise)
      ensures values.None? ==> err.None? && frame == old(frame)
      ensures values.Some? ==> (err.None? <==> old(Size()) == 0 || |values.value| == old(Size()))
      ensures values.Some? && err.Some? ==> err == Some(ValueError) && frame == old(frame)
      ensures values.Some? && |values.value| == old(Size()) ==>
                frame == SetColumn(old(frame), NCountsKey, values.value)
      ensures values.Some? && old(Size()) == 0 && |values.value| > 0 ==>
                frame == SetColumn(GrowRows(old(frame), RowLabels(|values.value|)), NCountsKey, values.value)
      ensures values.Some? && err.None? ==> Size() == |values.value| && Lookup(frame, NCountsKey) == values
      ensures Size() == old(Size()) ==>
                forall other :: other != NCountsKey ==> Lookup(frame, other) == old(Lookup(frame, other))
      ensures Size() != old(Size()) ==>
                forall other :: other != NCountsKey ==>
                  Lookup(frame, other) == if other in old(frame.names) then Some(Blank(Size())) else None
    {
      err := SetAnnotation(NCountsKey, values);
    }

    method SetMeanUmi(values: Option<seq<Cell>>) returns (err: Option<Error>)
      requires Valid()
      modifies this
      ensures WellFormed(frame) && Distinct(frame.names)
      ensures Size() == old(Size()) ==> Valid()
      ensures matrix == old(matrix) && pairwise == old(pairwise)
      ensures values.None? ==> err.None? && frame == old(frame)
      ensures values.Some? ==> (err.None? <==> old(Size()) == 0 || |values.value| == old(Size()))
      ensures values.Some? && err.Some? ==> err == Some(ValueError) && frame == old(frame)
      ensures values.Some? && |values.value| == old(Size()) ==>
                frame == SetColumn(old(frame), MeanUmiKey, values.value)
      ensures values.Some? && old(Size()) == 0 && |values.value| > 0 ==>
                frame == SetColumn(GrowRows(old(frame), RowLabels(|values.value|)), MeanUmiKey, values.value)
      ensures values.Some? && err.None? ==> Size() == |values.value| && Lookup(frame, MeanUmiKey) == values
      ensures Size() == old(Size()) ==>
                forall other :: other != MeanUmiKey ==> Lookup(frame, other) == old(Lookup(frame, other))
      ensures Size() != old(Size()) ==>
                forall other :: other != MeanUmiKey ==>
                  Lookup(frame, other) == if other in old(frame.names) then Some(Blank(Size())) else None
    {
      err := SetAnnotation(MeanUmiKey, values);
    }

    /** `_remove_unused_categories`: every categorical column of the table and of the
        DataFrames held directly in `_matrix` and `_pairwise` drops the categories no
        cell holds. */
    method RemoveUnusedCategories()
      modifies this
      ensures frame == CleanFrame(old(frame))
      ensures matrix == CleanMatrix(old(matrix))
      ensures pairwise == CleanPairwise(old(pairwise))
      ensures old(Valid()) ==> Valid()
    {
      frame := DropUnusedCategories(frame);

      var keys := matrix.Keys;
      while keys != {}
        invariant keys <= matrix.Keys && matrix.Keys == old(matrix).Keys
        invariant forall k :: k in matrix ==>
                    matrix[k] == if k in keys then old(matrix)[k] else CleanMatrixEntry(old(matrix)[k])
        invariant frame == CleanFrame(old(frame)) && pairwise == old(pairwise)
        decreases keys
      {
        var key :| key in keys;
        match matrix[key] {
          case MatrixFrame(f) =>
            var g := DropUnusedCategories(f);
            matrix := matrix[key := MatrixFrame(g)];
          case MatrixArray(_) =>
          case MatrixOther(_) =>
        }
        keys := keys - {key};
      }
      assert matrix == CleanMatrix(old(matrix));

      keys := pairwise.Keys;
      while keys != {}
        invariant keys <= pairwise.Keys && pairwise.Keys == old(pairwise).Keys
        invariant forall k :: k in pairwise ==>
                    pairwise[k] == if k in keys then old(pairwise)[k] else CleanPairEntry(old(pairwise)[k])
        invariant frame == CleanFrame(old(frame)) && matrix == CleanMatrix(old(matrix))
        decreases keys
      {
        var key :| key in keys;
        match pairwise[key] {
          case PairFrame(f) =>
            var g := DropUnusedCategories(f);
            pairwise := pairwise[key := PairFrame(g)];
          case PairArray(_, _) =>
          case PairDict(_) =>
          case PairOther(_) =>
        }
        keys := keys - {key};
      }
      assert pairwise == CleanPairwise(old(pairwise));
    }

    /** The loop of `sub_set` over `_matrix`. It is a step of `SubSet` only: on its own
        it leaves `_matrix` cut while the table is not, so `Valid()` is not kept. */
    method CutMatrixEntries(index: seq<int>, ghost n: nat)
      requires (forall k :: k in matrix ==> MatrixFits(matrix[k], n)) && InRange(index, n)
      modifies this
      ensures frame == old(frame) && pairwise == old(pairwise)
      ensures matrix == CutMatrix(old(matrix), index, n)
    {
      var keys := matrix.Keys;
      while keys != {}
        invariant keys <= matrix.Keys && matrix.Keys == old(matrix).Keys
        invariant forall k :: k in old(matrix) ==> MatrixFits(old(matrix)[k], n)
        invariant forall k :: k in matrix ==>
                    matrix[k] == if k in keys then old(matrix)[k] else CutMatrixEntry(old(matrix)[k], index, n)
        invariant frame == old(frame) && pairwise == old(pairwise)
        decreases keys
      {
        var key :| key in keys;
        match matrix[key] {
          case MatrixFrame(f) =>
            matrix := matrix[key := MatrixFrame(TakeRows(f, index))];
          case MatrixArray(rows) =>
            matrix := matrix[key := MatrixArray(Pick(rows, index))];
          case MatrixOther(_) =>
            // not supported: a warning is logged and the value stays
        }
        keys := keys - {key};
      }
      assert matrix == CutMatrix(old(matrix), index, n);

    }

    /** The loop of `sub_set` over `_pairwise`; like `CutMatrixEntries`, a step of
        `SubSet` only. */
    method CutPairwiseEntries(index: seq<int>, ghost n: nat)
      requires (forall k :: k in pairwise ==> PairFits(pairwise[k], n)) && InRange(index, n)
      modifies this
      ensures frame == old(frame) && matrix == old(matrix)
      ensures pairwise == CutPairwise(old(pairwise), index, n)
    {
      var keys := pairwise.Keys;
      while keys != {}
        invariant keys <= pairwise.Keys && pairwise.Keys == old(pairwise).Keys
        invariant forall k :: k in old(pairwise) ==> PairFits(old(pairwise)[k], n)
        invariant forall k :: k in pairwise ==>
                    pairwise[k] == if k in keys then old(pairwise)[k] else CutPairEntry(old(pairwise)[k], index, n)
        invariant frame == old(frame) && matrix == old(matrix)
        decreases keys
      {
        var key :| key in keys;
        match pairwise[key] {
          case PairFrame(f) =>
            pairwise := pairwise[key := PairFrame(TakeSquare(f, index, n))];
          case PairArray(d, rows) =>
            if d == 2 {
              pairwise := pairwise[key := PairArray(d, CutGrid(rows, index, n))];
            }
            // any other number of axes: a warning is logged and the value stays
          case PairDict(m) =>
            var inner := SubsetNestedDict(m, index, n);
            pairwise := pairwise[key := PairDict(inner)];
          case PairOther(_) =>
            // not supported: a warning is logged and the value stays
        }
        keys := keys - {key};
      }
      assert pairwise == CutPairwise(old(pairwise), index, n);

    }

    /** `sub_set(index)`: the object itself, restricted in place to the genes at the
        positions `index` (in that order, repeats included). The table, every DataFrame,
        array and sparse matrix of `_matrix` and every gene-by-gene matrix of `_pairwise`
        (also inside dictionaries) are cut by the same positions; other values stay;
        finally unused categories are removed. */
    method SubSet(index: seq<int>) returns (self: Gene)
      requires Valid() && InRange(index, Size())
      modifies this
      ensures self == this && Valid() && Size() == |index|
      ensures frame == CleanFrame(TakeRows(old(frame), index))
      ensures matrix == CleanMatrix(CutMatrix(old(matrix), index, old(Size())))
      ensures pairwise == CleanPairwise(CutPairwise(old(pairwise), index, old(Size())))
    {
      ghost var n := Size();
      SubsetConsistent(frame, matrix, pairwise, index);
      frame := TakeRows(frame, index);

      CutMatrixEntries(index, n);
      CutPairwiseEntries(index, n);
      RemoveUnusedCategories();
      self := this;
    }
  }
}

=== FILE: gene_lemmas.dfy ===
/** Properties of `get_index` and `sub_set` that relate several calls or characterise a
    result completely. */
module GeneLemmas {
  import opened Seqs
  import opened Frames
  import opened GeneCore

  // ---------------------------------------------------------------------------
  // Label lookup

  /** With unique labels, position `p` is returned once for every occurrence of its label. */
  lemma {:induction false} IndexerCount(index: seq<string>, labels: seq<string>, p: int)
    requires Distinct(index) && 0 <= p < |index|
    ensures multiset(Indexer(index, labels))[p] == multiset(labels)[index[p]]
  {
    if labels != [] {
      var head, rest := labels[0], labels[1..];
      IndexerCount(index, rest, p);
      var j := Find(index, head);
      assert j == p <==> head == index[p] by {
        FindDistinct(index, p);
      }
      assert Indexer(index, labels) == [j] + Indexer(index, rest);
      assert multiset(Indexer(index, labels)) == multiset{j} + multiset(Indexer(index, rest));
      assert labels == [head] + rest;
      assert multiset(labels) == multiset{head} + multiset(rest);
    }
  }

  /** Dropping the -1 marks keeps every found position as often as it occurred. */
  lemma {:induction false} FoundCount(gi: seq<int>, x: int)
    requires x != -1
    ensures multiset(Found(gi))[x] == multiset(gi)[x]
  {
    if gi != [] {
      FoundCount(gi[1..], x);
      assert gi == [gi[0]] + gi[1..];
    }
  }

  /** The labels of the found positions are the known labels, in their input order. */
  lemma {:induction false} FoundLabelsSubseq(index: seq<string>, labels: seq<string>)
    ensures InRange(Found(Indexer(index, labels)), |index|)
    ensures IsSubseq(Pick(index, Found(Indexer(index, labels))), labels)
  {
    var gi := Indexer(index, labels);
    assert forall x :: x in Found(gi) ==> 0 <= x < |index|;
    if labels != [] {
      FoundLabelsSubseq(index, labels[1..]);
      assert gi == [Find(index, labels[0])] + Indexer(index, labels[1..]);
      assert gi[1..] == Indexer(index, labels[1..]);
      var rest := Found(gi[1..]);
      var j := Find(index, labels[0]);
      if j == -1 {
        assert Found(gi) == rest;
        SubseqOfTail(Pick(index, rest), labels);
      } else {
        assert Found(gi) == [j] + rest;
        var picked := Pick(index, [j] + rest);
        assert picked[0] == labels[0];
        assert picked[1..] == Pick(index, rest);
      }
    }
  }

  // ---------------------------------------------------------------------------
  // get_index

  /** A single int or str is looked up as a one-element list. */
  lemma GetIndexOne(g: Gene, item: Item, onlyHighly: bool)
    requires g.Valid()
    ensures g.GetIndex(One(item), onlyHighly) == g.GetIndex(Many([item]), onlyHighly)
  {
  }

  /** An integer list: the result keeps the used positions of the list, in list order and
      with their repeats, and nothing else. Out-of-range and unflagged positions are
      dropped. */
  lemma GetIndexPositions(g: Gene, items: seq<Item>, onlyHighly: bool)
    requires g.Valid() && |items| > 0 && AllPositions(items)
    ensures g.GetIndex(Many(items), onlyHighly).Ok?
    ensures IsSubseq(g.GetIndex(Many(items), onlyHighly).value, Ints(items))
    ensures forall p :: multiset(g.GetIndex(Many(items), onlyHighly).value)[p] ==
              if IsUsed(g.frame, p, onlyHighly) then multiset(Ints(items))[p] else 0
  {
    var used := UsedPositions(g.frame, onlyHighly);
    var r := g.GetIndex(Many(items), onlyHighly);
    assert r == Ok(KeepIn(Ints(items), used));
    KeepInSubseq(Ints(items), used);
    forall p ensures multiset(r.value)[p] ==
                     if IsUsed(g.frame, p, onlyHighly) then multiset(Ints(items))[p] else 0 {
      KeepInCount(Ints(items), used, p);
    }
  }

  /** A list of names (or a list mixing names and integers, which numpy turns into text)
      over unique gene names: each known, used gene is returned once per occurrence of its
      name, unknown names are dropped, and the returned genes' names appear in list order. */
  lemma GetIndexNames(g: Gene, items: seq<Item>, onlyHighly: bool)
    requires g.Valid() && |items| > 0 && !AllPositions(items) && Distinct(g.frame.index)
    ensures g.GetIndex(Many(items), onlyHighly).Ok?
    ensures InRange(g.GetIndex(Many(items), onlyHighly).value, g.Size())
    ensures IsSubseq(Pick(g.frame.index, g.GetIndex(Many(items), onlyHighly).value), Texts(items))
    ensures forall p :: 0 <= p < g.Size() ==>
              multiset(g.GetIndex(Many(items), onlyHighly).value)[p] ==
              if IsUsed(g.frame, p, onlyHighly) then multiset(Texts(items))[g.frame.index[p]] else 0
  {
    var index := g.frame.index;
    var used := UsedPositions(g.frame, onlyHighly);
    var found := Found(Indexer(index, Texts(items)));
    var r := g.GetIndex(Many(items), onlyHighly);
    assert r == Ok(KeepIn(found, used));
    FoundLabelsSubseq(index, Texts(items));
    KeepInSubseq(found, used);
    SubseqPick(index, r.value, found);
    SubseqTrans(Pick(index, r.value), Pick(index, found), Texts(items));
    forall p | 0 <= p < |index|
      ensures multiset(r.value)[p] ==
              if IsUsed(g.frame, p, onlyHighly) then multiset(Texts(items))[index[p]] else 0
    {
      KeepInCount(found, used, p);
      FoundCount(Indexer(index, Texts(items)), p);
      IndexerCount(index, Texts(items), p);
    }
  }

  /** Looking names up needs unique gene names. */
  lemma GetIndexNamesNeedUniqueIndex(g: Gene, items: seq<Item>, onlyHighly: bool)
    requires g.Valid() && |items| > 0 && !AllPositions(items) && !Distinct(g.frame.index)
    ensures g.GetIndex(Many(items), onlyHighly) == Err(InvalidIndexError)
  {
  }

  // ---------------------------------------------------------------------------
  // sub_set

  /** Subsetting by `i` and then by `j` leaves the same table and side entries as one
      subsetting by the composed positions `i[j]`. */
  lemma SubsetTwice(f: Frame, matrix: map<string, MatrixEntry>, pairwise: map<string, PairEntry>,
                    i: seq<int>, j: seq<int>)
    requires Consistent(f, matrix, pairwise) && InRange(i, |f.index|) && InRange(j, |i|)
    ensures InRange(Pick(i, j), |f.index|)
    ensures CleanFrame(TakeRows(CleanFrame(TakeRows(f, i)), j)) == CleanFrame(TakeRows(f, Pick(i, j)))
    ensures CleanMatrix(CutMatrix(CleanMatrix(CutMatrix(matrix, i, |f.index|)), j, |i|))
         == CleanMatrix(CutMatrix(matrix, Pick(i, j), |f.index|))
    ensures CleanPairwise(CutPairwise(CleanPairwise(CutPairwise(pairwise, i, |f.index|)), j, |i|))
         == CleanPairwise(CutPairwise(pairwise, Pick(i, j), |f.index|))
  {
    var n := |f.index|;
    CleanTakeRowsTwice(f, i, j);
    forall k | k in matrix
      ensures CleanMatrixEntry(CutMatrixEntry(CleanMatrixEntry(CutMatrixEntry(matrix[k], i, n)), j, |i|))
           == CleanMatrixEntry(CutMatrixEntry(matrix[k], Pick(i, j), n))
    {
      match matrix[k]
      case MatrixFrame(t) => CleanTakeRowsTwice(t, i, j);
      case MatrixArray(rows) => PickPick(rows, i, j);
      case MatrixOther(_) =>
    }
    forall k | k in pairwise
      ensures CleanPairEntry(CutPairEntry(CleanPairEntry(CutPairEntry(pairwise[k], i, n)), j, |i|))
           == CleanPairEntry(CutPairEntry(pairwise[k], Pick(i, j), n))
    {
      PairEntryTwice(pairwise[k], i, j, n);
    }
  }

  lemma PairEntryTwice(e: PairEntry, i: seq<int>, j: seq<int>, n: nat)
    requires PairFits(e, n) && InRange(i, n) && InRange(j, |i|)
    ensures InRange(Pick(i, j), n)
    ensures CleanPairEntry(CutPairEntry(CleanPairEntry(CutPairEntry(e, i, n)), j, |i|))
         == CleanPairEntry(CutPairEntry(e, Pick(i, j), n))
  {
    match e
    case PairFrame(t) => CleanTakeSquareTwice(t, i, j, n);
    case PairArray(d, rows) =>
      if d == 2 {
        GridTwice(rows, i, j, n);
      }
    case PairDict(m) =>
      forall k | k in m
        ensures CutNestedEntry(CutNestedEntry(m[k], i, n), j, |i|) == CutNestedEntry(m[k], Pick(i, j), n)
      {
        match m[k]
        case NestedFrame(t) => TakeSquareTwice(t, i, j, n);
        case NestedArray(rows) => GridTwice(rows, i, j, n);
        case NestedOther(_) =>
      }
    case PairOther(_) =>
  }

  lemma GridTwice(rows: seq<seq<Cell>>, i: seq<int>, j: seq<int>, n: nat)
    requires SquareGrid(rows, n) && InRange(i, n) && InRange(j, |i|)
    ensures InRange(Pick(i, j), n)
    ensures CutGrid(CutGrid(rows, i, n), j, |i|) == CutGrid(rows, Pick(i, j), n)
  {
    PickPick(rows, i, j);
    forall a | 0 <= a < |j| {
      PickPick(rows[i[j[a]]], i, j);
    }
  }

  /** Subsetting by every position in order changes nothing but the categories. */
  lemma SubsetAllPositions(f: Frame, matrix: map<string, MatrixEntry>, pairwise: map<string, PairEntry>)
    requires Consistent(f, matrix, pairwise)
    ensures CleanFrame(TakeRows(f, Range(|f.index|))) == CleanFrame(f)
    ensures CleanMatrix(CutMatrix(matrix, Range(|f.index|), |f.index|)) == CleanMatrix(matrix)
    ensures CleanPairwise(CutPairwise(pairwise, Range(|f.index|), |f.index|)) == CleanPairwise(pairwise)
  {
    var n := |f.index|;
    TakeAllRows(f);
    forall k | k in matrix
      ensures CutMatrixEntry(matrix[k], Range(n), n) == matrix[k]
    {
      match matrix[k]
      case MatrixFrame(t) => TakeAllRows(t);
      case MatrixArray(rows) => PickRange(rows);
      case MatrixOther(_) =>
    }
    forall k | k in pairwise
      ensures CutPairEntry(pairwise[k], Range(n), n) == pairwise[k]
    {
      match pairwise[k]
      case PairFrame(t) => TakeAllSquare(t, n);
      case PairArray(d, rows) =>
        if d == 2 {
          GridAll(rows, n);
        }
      case PairDict(m) =>
        forall key | key in m
          ensures CutNestedEntry(m[key], Range(n), n) == m[key]
        {
          match m[key]
          case NestedFrame(t) => TakeAllSquare(t, n);
          case NestedArray(rows) => GridAll(rows, n);
          case NestedOther(_) =>
        }
      case PairOther(_) =>
    }
  }

  lemma GridAll(rows: seq<seq<Cell>>, n: nat)
    requires SquareGrid(rows, n)
    ensures CutGrid(rows, Range(n), n) == rows
  {
    forall a | 0 <= a < n {
      PickRange(rows[a]);
    }
  }

  /** Removing unused categories a second time changes nothing. */
  lemma CleanIdempotent(f: Frame, matrix: map<string, MatrixEntry>, pairwise: map<string, PairEntry>)
    ensures CleanFrame(CleanFrame(f)) == CleanFrame(f)
    ensures CleanMatrix(CleanMatrix(matrix)) == CleanMatrix(matrix)
    ensures CleanPairwise(CleanPairwise(pairwise)) == CleanPairwise(pairwise)
  {
    CleanFrameIdempotent(f);
    forall k | k in matrix && matrix[k].MatrixFrame? {
      CleanFrameIdempotent(matrix[k].frame);
    }
    forall k | k in pairwise && pairwise[k].PairFrame? {
      CleanFrameIdempotent(pairwise[k].frame);
    }
  }

  /** After a subset every categorical column of the table keeps exactly the categories
      still held by some cell, in their original order and without repeats. */
  lemma SubsetCategories(f: Frame, idx: seq<int>, c: int)
    requires WellFormed(f) && InRange(idx, |f.index|) && 0 <= c < |f.columns| && f.columns[c].Categorical?
    ensures var col := CleanFrame(TakeRows(f, idx)).columns[c];
            col.Categorical? &&
            col.cells == Pick(f.columns[c].cells, idx) &&
            IsSubseq(col.categories, f.columns[c].categories) &&
            (forall x :: x in col.categories <==> x in f.columns[c].categories && x in col.cells) &&
            (Distinct(f.columns[c].categories) ==> Distinct(col.categories))
  {
    var before := f.columns[c];
    if Distinct(before.categories) {
      KeepInDistinct(before.categories, Pick(before.cells, idx));
    }
  }

  /** After a subset every categorical column of a gene-by-gene DataFrame held in
      `_pairwise` keeps exactly the categories still held by some cell, in their
      original order and without repeats. */
  lemma SquareCategories(f: Frame, idx: seq<int>, n: nat, b: int)
    requires IsSquare(f, n) && InRange(idx, n) && 0 <= b < |idx| && f.columns[idx[b]].Categorical?
    ensures var col := CleanFrame(TakeSquare(f, idx, n)).columns[b];
            var before := f.columns[idx[b]];
            col.Categorical? &&
            col.cells == Pick(before.cells, idx) &&
            IsSubseq(col.categories, before.categories) &&
            (forall x :: x in col.categories <==> x in before.categories && x in col.cells) &&
            (Distinct(before.categories) ==> Distinct(col.categories))
  {
    var before := f.columns[idx[b]];
    if Distinct(before.categories) {
      KeepInDistinct(before.categories, Pick(before.cells, idx));
    }
  }
}

=== FILE: seqs.dfy ===
/** Positional operations on sequences: the numpy/pandas primitives (`arange`,
    fancy indexing, `isin` filtering, label lookup) that the gene table is built on. */
module Seqs {

  datatype Option<T> = None | Some(value: T)

  /** Every position in `idx` addresses an element of a sequence of length `n`. */
  predicate InRange(idx: seq<int>, n: int) {
    forall a :: 0 <= a < |idx| ==> 0 <= idx[a] < n
  }

  predicate StrictlyIncreasing(s: seq<int>) {
    forall a, b :: 0 <= a < b < |s| ==> s[a] < s[b]
  }

  predicate Distinct<T(==)>(s: seq<T>) {
    forall a, b :: 0 <= a < b < |s| ==> s[a] != s[b]
  }

  /** `a` is obtained from `b` by deleting elements, keeping the order of the rest. */
  predicate IsSubseq<T(==)>(a: seq<T>, b: seq<T>)
    decreases |b|
  {
    a == [] ||
    (b != [] && ((a[0] == b[0] && IsSubseq(a[1..], b[1..])) || IsSubseq(a, b[1..])))
  }

  /** numpy's `arange(n)`: the positions 0, 1, ..., n - 1 in ascending order. */
  function Range(n: nat): (r: seq<int>)
    ensures |r| == n && StrictlyIncreasing(r) && InRange(r, n)
    ensures forall a :: 0 <= a < n ==> r[a] == a
    ensures forall p :: p in r <==> 0 <= p < n
  {
    if n == 0 then [] else Range(n - 1) + [n - 1]
  }

  /** Positional selection `s[idx]`: the element at each position of `idx`, in the
      order of `idx`, repeats included. */
  function Pick<T>(s: seq<T>, idx: seq<int>): (r: seq<T>)
    requires InRange(idx, |s|)
    ensures |r| == |idx|
    ensures forall a :: 0 <= a < |idx| ==> r[a] == s[idx[a]]
  {
    seq(|idx|, a requires 0 <= a < |idx| => s[idx[a]])
  }

  /** The first position of `x` in `s`, or -1 when `x` does not occur (pandas' `get_indexer`
      on one label). */
  function Find<T(==)>(s: seq<T>, x: T): (j: int)
    ensures -1 <= j < |s|
    ensures j == -1 <==> x !in s
    ensures j >= 0 ==> s[j] == x && x !in s[..j]
  {
    if s == [] then -1
    else if s[0] == x then 0
    else
      var k := Find(s[1..], x);
      if k == -1 then -1
      else
        assert s[..k + 1] == [s[0]] + s[1..][..k];
        k + 1
  }

  /** The elements of `s` that occur in `pool`, in their order in `s`, repeats included
      (numpy's `s[np.isin(s, pool)]`). */
  function KeepIn<T(==, !new)>(s: seq<T>, pool: seq<T>): (r: seq<T>)
    ensures |r| <= |s|
    ensures forall x :: x in r <==> x in s && x in pool
  {
    if s == [] then []
    else (if s[0] in pool then [s[0]] else []) + KeepIn(s[1..], pool)
  }

  /** Selecting by a sub-selection is selecting once by the composed positions. */
  lemma PickPick<T>(s: seq<T>, i: seq<int>, j: seq<int>)
    requires InRange(i, |s|) && InRange(j, |i|)
    ensures InRange(Pick(i, j), |s|)
    ensures Pick(Pick(s, i), j) == Pick(s, Pick(i, j))
  {
  }

  /** Selecting every position in order gives the sequence back. */
  lemma PickRange<T>(s: seq<T>)
    ensures Pick(s, Range(|s|)) == s
  {
  }

  /** In a sequence without repeats, the element at `p` is found at `p`. */
  lemma FindDistinct<T>(s: seq<T>, p: int)
    requires Distinct(s) && 0 <= p < |s|
    ensures Find(s, s[p]) == p
  {
  }

  /** `Find` returns the first occurrence. */
  lemma FindFirst<T>(s: seq<T>, x: T, j: int)
    requires 0 <= j < |s| && s[j] == x && x !in s[..j]
    ensures Find(s, x) == j
  {
  }

  lemma {:induction false} KeepInSubseq<T(!new)>(s: seq<T>, pool: seq<T>)
    ensures IsSubseq(KeepIn(s, pool), s)
  {
    if s != [] {
      KeepInSubseq(s[1..], pool);
      var rest := KeepIn(s[1..], pool);
      if s[0] in pool {
        assert KeepIn(s, pool) == [s[0]] + rest;
        assert KeepIn(s, pool)[1..] == rest;
      } else {
        assert KeepIn(s, pool) == rest;
      }
    }
  }

  /** Each element keeps its number of occurrences when it is in the pool and loses
      them all otherwise. */
  lemma {:induction false} KeepInCount<T(!new)>(s: seq<T>, pool: seq<T>, x: T)
    ensures multiset(KeepIn(s, pool))[x] == if x in pool then multiset(s)[x] else 0
  {
    if s != [] {
      KeepInCount(s[1..], pool, x);
      assert s == [s[0]] + s[1..];
    }
  }

  /** Filtering by a pool and then by a narrower one is filtering by the narrower one. */
  lemma {:induction false} KeepInNarrow<T(!new)>(s: seq<T>, wide: seq<T>, narrow: seq<T>)
    requires forall x :: x in s && x in narrow ==> x in wide
    ensures KeepIn(KeepIn(s, wide), narrow) == KeepIn(s, narrow)
  {
    if s != [] {
      KeepInNarrow(s[1..], wide, narrow);
      assert s[0] in s;
      var w := KeepIn(s, wide);
      if s[0] in wide {
        assert w == [s[0]] + KeepIn(s[1..], wide);
        assert w[0] == s[0] && w[1..] == KeepIn(s[1..], wide);
        assert KeepIn(w, narrow) == (if s[0] in narrow then [s[0]] else []) + KeepIn(w[1..], narrow);
      } else {
        assert s[0] !in narrow;
        assert w == KeepIn(s[1..], wide);
      }
    }
  }

  lemma {:induction false} KeepInDistinct<T(!new)>(s: seq<T>, pool: seq<T>)
    requires Distinct(s)
    ensures Distinct(KeepIn(s, pool))
  {
    if s != [] {
      assert Distinct(s[1..]) by {
        forall a, b | 0 <= a < b < |s[1..]| ensures s[1..][a] != s[1..][b] {
          assert s[1..][a] == s[a + 1] && s[1..][b] == s[b + 1];
        }
      }
      KeepInDistinct(s[1..], pool);
      var rest := KeepIn(s[1..], pool);
      if s[0] in pool {
        assert s[0] !in rest;
        var r := [s[0]] + rest;
        forall a, b | 0 <= a < b < |r| ensures r[a] != r[b] {
          if a == 0 {
            assert r[b] == rest[b - 1];
            assert rest[b - 1] in rest;
          } else {
            assert r[a] == rest[a - 1] && r[b] == rest[b - 1];
          }
        }
      }
    }
  }

  /** A subsequence of a sequence's tail is a subsequence of the sequence. */
  lemma SubseqOfTail<T>(a: seq<T>, b: seq<T>)
    requires b != [] && IsSubseq(a, b[1..])
    ensures IsSubseq(a, b)
  {
  }

  lemma {:induction false} SubseqTrans<T>(a: seq<T>, b: seq<T>, c: seq<T>)
    requires IsSubseq(a, b) && IsSubseq(b, c)
    ensures IsSubseq(a, c)
    decreases |c|
  {
    if a != [] {
      assert b != [] && c != [];
      if IsSubseq(b, c[1..]) {
        SubseqTrans(a, b, c[1..]);
      } else {
        assert b[0] == c[0] && IsSubseq(b[1..], c[1..]);
        if a[0] == b[0] && IsSubseq(a[1..], b[1..]) {
          SubseqTrans(a[1..], b[1..], c[1..]);
        } else {
          assert IsSubseq(a, b[1..]);
          SubseqTrans(a, b[1..], c[1..]);
        }
      }
    }
  }

  /** Looking positions up in a table keeps the subsequence relation between them. */
  lemma {:induction false} SubseqPick<T>(t: seq<T>, a: seq<int>, b: seq<int>)
    requires InRange(a, |t|) && InRange(b, |t|) && IsSubseq(a, b)
    ensures IsSubseq(Pick(t, a), Pick(t, b))
    decreases |b|
  {
    if a != [] {
      assert Pick(t, b)[1..] == Pick(t, b[1..]);
      if a[0] == b[0] && IsSubseq(a[1..], b[1..]) {
        SubseqPick(t, a[1..], b[1..]);
        assert Pick(t, a)[1..] == Pick(t, a[1..]);
      } else {
        SubseqPick(t, a, b[1..]);
      }
    }
  }
}
